=== FILE: README.md ===
# launch.toml process parser — Dafny model

`lib/parse_launch_toml.py` reads the `launch.toml` a Cloud Native Buildpack
writes and prints its process types. It does not use a TOML parser. It cuts the
file at every `[[processes]]` header. In each block it looks for the first
`type = "..."` assignment and the first `command = [...]` array. It pulls the
quoted literals out of the array. A `bash -c <script>` array becomes the bare
script; any other array becomes its `shlex.join`. Entries go into an
insertion-ordered dictionary, so a later block overwrites an earlier block
with the same type and keeps that type's first position. `main` then prints
either the whole dictionary as a YAML fragment (`--yaml`) or one command
(`--process <type>`), and reports failure through its exit status.

The model is pure Dafny:

- `Text` (text.dfy) holds the character classes: Python's `\s` as the exact
  `str.isspace` set, the quote class `["\']`, and a leftmost-match search.
- `Blocks` (blocks.dfy) is `re.split` on the literal header, without the
  leading piece.
- `Fields` (fields.dfy) holds the two `re.search` patterns and the
  `re.findall` of quoted literals. Each is a per-position matcher plus a
  leftmost search.
- `ShellQuote` (shellquote.dfy) has `shlex.quote` and `shlex.join`. It also
  has a POSIX word splitter, and the proof shows the joined command line
  splits back into exactly the original words when none of them holds NUL,
  and cannot be read at all when one does.
- `OrderedMap` (orderedmap.dfy) is the insertion-ordered `dict`.
- `Launch` (launch.dfy) is `parse_processes`, both as a fold and as the
  source's loop.
- `Cli` (cli.dfy) is `main`. The command line, the result of the existence
  test and the result of reading the file are its inputs. The printed text,
  the kind of standard-error output and the exit status are its result.

## Model

| member | source | states |
|---|---|---|
| Blocks.SplitOn | lib/parse_launch_toml.py:34 | splitting on a non-empty literal gives at least one piece |
| Blocks.SplitOnSpec | lib/parse_launch_toml.py:34 | joining the pieces with the separator gives back the input, and no piece contains the separator |
| Blocks.ProcessBlocks | lib/parse_launch_toml.py:34 | `re.split(...)[1:]`: the pieces after the first occurrence of the header, in document order; its properties are stated by `Blocks.ProcessBlocksSpec` and `Blocks.PrefixIgnored` |
| Blocks.ProcessBlocksSpec | lib/parse_launch_toml.py:34 | there are no blocks exactly when the header does not occur; no block contains the header; the content is a header-free preamble, then a header, then the blocks joined by headers |
| Blocks.MarkerUnbordered | lib/parse_launch_toml.py:34 | no position inside `[[processes]]` after its first character starts with `[[`, so two occurrences never overlap |
| Blocks.PrefixIgnored | lib/parse_launch_toml.py:34 | text before the first header does not change the blocks (the `[1:]` drops it) |
| Fields.AssignHere | lib/parse_launch_toml.py:38 | the shared prefix `key\s*=\s*` of both patterns, consuming greedy white-space runs on either side of `=`; `Fields.AssignHereAccepts` and `Fields.AssignHereSound` state exactly which texts it accepts |
| Fields.AssignHereAccepts | lib/parse_launch_toml.py:38 | `key`, optional white space, `=`, optional white space is recognised, and the rest starts at the first non-space character |
| Fields.AssignHereSound | lib/parse_launch_toml.py:38 | whatever the assignment matcher accepts really has the shape key, white space, `=`, white space |
| Fields.QuotedHere | lib/parse_launch_toml.py:38 | a captured type value is non-empty and contains no quote character |
| Fields.QuotedHereAccepts | lib/parse_launch_toml.py:38 | any quote, a non-empty quote-free text, then any quote (the two quotes may differ) is accepted and captures that text |
| Fields.QuotedHereSound | lib/parse_launch_toml.py:38 | anything accepted is a quote, the capture, then a quote |
| Fields.TypeHere | lib/parse_launch_toml.py:38 | a match of the `type` pattern captures a non-empty quote-free value |
| Fields.TypeHereAccepts | lib/parse_launch_toml.py:38 | every text of the form `type`, spaces, `=`, spaces, quote, value, quote matches and captures the value |
| Fields.TypeHereSound | lib/parse_launch_toml.py:38 | every match of the `type` pattern has that form around its capture |
| Fields.FindType | lib/parse_launch_toml.py:38-42 | `re.search` with the type pattern, scanning positions from the left; its contract is `Fields.FindTypeSpec` |
| Fields.FindTypeSpec | lib/parse_launch_toml.py:38-42 | no type is found exactly when the pattern matches at no position; otherwise the capture comes from the leftmost matching position |
| Fields.BracketedHere | lib/parse_launch_toml.py:45 | the lazy `\[(.*?)\]` captures text without a `]` |
| Fields.BracketedHereAccepts | lib/parse_launch_toml.py:45 | `[`, a `]`-free body, `]` is accepted and captures the body, so the capture ends at the first `]` |
| Fields.BracketedHereSound | lib/parse_launch_toml.py:45 | anything accepted is `[`, the capture, `]` |
| Fields.CommandHere | lib/parse_launch_toml.py:45 | a match of the `command` pattern captures text without a `]` |
| Fields.CommandHereAccepts | lib/parse_launch_toml.py:45 | every text of the form `command`, spaces, `=`, spaces, `[`, body, `]` matches and captures the body, newlines included |
| Fields.CommandHereSound | lib/parse_launch_toml.py:45 | every match of the `command` pattern has that form around its capture |
| Fields.FindCommand | lib/parse_launch_toml.py:45-47 | `re.search` with the command pattern and `re.DOTALL`, scanning positions from the left; its contract is `Fields.FindCommandSpec` |
| Fields.FindCommandSpec | lib/parse_launch_toml.py:45-47 | no command array is found exactly when the pattern matches at no position; otherwise the capture comes from the leftmost matching position |
| Fields.CountQuotesAppend | lib/parse_launch_toml.py:52 | the number of quote characters is additive over concatenation |
| Fields.CountQuotesFree | lib/parse_launch_toml.py:52 | a quote-free text has no quote characters |
| Fields.Literals | lib/parse_launch_toml.py:52 | every extracted literal is quote-free |
| Fields.LiteralsStep | lib/parse_launch_toml.py:52 | skipping quote-free text, then any quote, a quote-free literal and any quote, extracts that literal first and continues after the second quote |
| Fields.LiteralsNone | lib/parse_launch_toml.py:52-55 | fewer than two quote characters give no literal, so the block is skipped |
| Fields.LiteralsCount | lib/parse_launch_toml.py:52 | the number of literals is the number of quote characters divided by two, rounded down |
| Fields.LiteralsOfRenderArray | lib/parse_launch_toml.py:52 | writing quote-free words as a quoted array with a quote-free separator and extracting the literals gives back exactly those words |
| Launch.BashPrefix | lib/parse_launch_toml.py:58 | the test "at least three parts and the first two are `bash`, `-c`" is the bash-script case |
| Launch.CommandLine | lib/parse_launch_toml.py:57-61 | a `bash -c` array gives its third literal; any other array gives a command line that a POSIX shell splits back into exactly those literals when none holds NUL, and that no shell can read when one does |
| Launch.ParseBlock | lib/parse_launch_toml.py:36-61 | a block yields nothing exactly when it has no type, no command array, or fewer than two quotes in the array; otherwise it yields the leftmost type, which is non-empty and quote-free |
| Launch.BlockCommand | lib/parse_launch_toml.py:50-61 | the command of an entry is built from the literals of the leftmost command array: the script for `bash -c`, otherwise a shell line that splits back into the literals when none holds NUL, and that the splitter refuses when one does |
| Launch.Updates | lib/parse_launch_toml.py:36 | there is one update per block |
| Launch.UpdatesSpec | lib/parse_launch_toml.py:36-61 | the update at each position is the entry of the block at that position, or nothing |
| Launch.MapSeqIndex | lib/parse_launch_toml.py:36 | the loop visits the blocks in order: the image at each position is the image of the element there |
| Launch.MapSeqAppend | lib/parse_launch_toml.py:36 | the updates of two runs of blocks are the updates of the first run followed by those of the second |
| Launch.ParseProcesses | lib/parse_launch_toml.py:30-63 | content without a header gives the empty dictionary |
| Launch.LastBlockWins | lib/parse_launch_toml.py:59-61 | a type is absent exactly when no block yields it; it maps to `c` exactly when some block yields `(type, c)` and no later block yields that type |
| Launch.TypesInFirstSeenOrder | lib/parse_launch_toml.py:59-61 | each type is listed once, in the order of the first block that yields it |
| Launch.PreambleIgnored | lib/parse_launch_toml.py:34 | header-free text before the first header does not change the dictionary |
| Launch.SkippedBlockInert | lib/parse_launch_toml.py:39-55 | removing a block that yields nothing, wherever it stands, does not change the dictionary |
| Launch.ParseBlockSteps | lib/parse_launch_toml.py:36-61 | the loop body, with an early exit for each `continue`, computes the block's entry |
| Launch.CollectStep | lib/parse_launch_toml.py:36-61 | one more turn of the loop performs exactly the next block's update |
| Launch.CollectLoop | lib/parse_launch_toml.py:30-63 | the source's loop over the blocks, starting from `{}`, computes the dictionary of all the updates |
| Launch.ParseProcessesLoop | lib/parse_launch_toml.py:30-63 | splitting and then running the loop computes the dictionary |
| OrderedMap.Keys | lib/parse_launch_toml.py:84 | the keys are listed in entry order |
| OrderedMap.Get | lib/parse_launch_toml.py:88 | a lookup finds nothing exactly when the key is not present |
| OrderedMap.Put | lib/parse_launch_toml.py:59-61 | `processes[proc_type] = ...` on an insertion-ordered dict; `OrderedMap.PutGet` and `OrderedMap.PutKeys` state its effect |
| OrderedMap.PutGet | lib/parse_launch_toml.py:59-61 | after an assignment the key maps to the new value and every other key keeps its value |
| OrderedMap.PutKeys | lib/parse_launch_toml.py:59-61 | an assignment to a present key keeps the key order; an assignment to a new key appends it |
| OrderedMap.Apply | lib/parse_launch_toml.py:30-61 | the dictionary after performing the assignments in order from `{}`; `OrderedMap.ApplyGet`, `OrderedMap.ApplyKeysDistinct` and `OrderedMap.ApplyKeysOrdered` state its contents and order |
| OrderedMap.ApplySnoc | lib/parse_launch_toml.py:36-61 | performing one more assignment is one more step on the dictionary so far |
| OrderedMap.ApplyPrefixStep | lib/parse_launch_toml.py:36-61 | performing the assignments up to position `i` is performing those before `i` and then the one at `i` |
| OrderedMap.LastWrite | lib/parse_launch_toml.py:59-61 | no last assignment to a key exactly when nothing assigns to it |
| OrderedMap.LastWriteSome | lib/parse_launch_toml.py:59-61 | the last assignment to a key writes `v` exactly when some assignment writes `v` to it and no later one writes to it |
| OrderedMap.ApplyLastWrite | lib/parse_launch_toml.py:59-61 | the dictionary maps each key to the value of its last assignment, and lacks the keys never assigned |
| OrderedMap.FirstWriteSpec | lib/parse_launch_toml.py:59-61 | the first update that assigns a key: none before it assigns the key, and it does unless no update does |
| OrderedMap.FirstWriteUnique | lib/parse_launch_toml.py:59-61 | any index with the first-assignment property is the first assignment |
| OrderedMap.ApplyGet | lib/parse_launch_toml.py:59-61 | after a run of assignments a key is absent exactly when nothing assigned it, and maps to `v` exactly when its last assignment was `v` |
| OrderedMap.FirstWriteSnoc | lib/parse_launch_toml.py:59-61 | one more update moves no key's first assignment, except a key seen for the first time |
| OrderedMap.ApplyKeysAssigned | lib/parse_launch_toml.py:59-61 | a key is present exactly when some update assigned it |
| OrderedMap.ApplyEmpty | lib/parse_launch_toml.py:82 | the dictionary is empty exactly when every update is skipped |
| OrderedMap.ApplyKeysDistinct | lib/parse_launch_toml.py:84 | iterating the dictionary never visits a key twice |
| OrderedMap.PresentKeysKeepFirstWrite | lib/parse_launch_toml.py:59-61 | one more assignment does not move the first assignment of a key already present |
| OrderedMap.ApplySnocOrdered | lib/parse_launch_toml.py:59-61 | one more assignment keeps the keys in the order of their first assignment |
| OrderedMap.ApplyKeysOrdered | lib/parse_launch_toml.py:84 | iteration order is the order of first assignment |
| OrderedMap.ApplySkipAt | lib/parse_launch_toml.py:39-55 | an update that assigns nothing can be removed, wherever it stands, without changing the result |
| ShellQuote.IsSafeChar | lib/parse_launch_toml.py:61 | the class `[\w@%+=:,./-]` with ASCII `\w` that `shlex.quote` tests to leave a word bare: ASCII letters, digits and `_@%+=:,./-` |
| ShellQuote.Quote | lib/parse_launch_toml.py:61 | `shlex.quote` in its three cases: the empty word gives `''`; the result is the word itself exactly when the word is non-empty and made of safe characters only; otherwise the result opens with a single quote (the word in single quotes with each `'` written `'"'"'`); the result is never empty |
| ShellQuote.Join | lib/parse_launch_toml.py:61 | `shlex.join`: the quoted words separated by single spaces; the result is empty exactly when there are no words |
| ShellQuote.Escape | lib/parse_launch_toml.py:61 | the `replace("'", "'\"'\"'")` step of `shlex.quote`; `ShellQuote.EscapeNoQuote` and `ShellQuote.EscapeFirstQuote` state its effect |
| ShellQuote.Split | lib/parse_launch_toml.py:61 | how a POSIX shell reads a command line as words (sections 2.2, 2.3 and 2.6.7 of the Shell Command Language): space and tab delimit words, quotes are removed, ordinary characters stand for themselves, and NUL is refused anywhere because no shell input can carry it; the partner of `ShellQuote.Join` in `ShellQuote.JoinSplits` |
| ShellQuote.NewlineEndsCommand | lib/parse_launch_toml.py:61 | an unquoted newline is not a word separator: the splitter refuses `a`, newline, `b`, which a shell runs as two commands |
| ShellQuote.SafeIsOrdinary | lib/parse_launch_toml.py:61 | every character `shlex.quote` leaves bare is one a POSIX shell reads as itself: not a blank, a quote, a backslash, or any other character section 2.2 of the Shell Command Language names as special |
| ShellQuote.SafeRunSplits | lib/parse_launch_toml.py:61 | the splitter reads a run of characters `shlex.quote` leaves bare as literal text of the current word |
| ShellQuote.SingleQuotedSplits | lib/parse_launch_toml.py:61 | a single-quoted span without NUL adds its body to the current word verbatim |
| ShellQuote.DoubleQuotedSplits | lib/parse_launch_toml.py:61 | a double-quoted span without `\`, `$` or a backquote adds its body to the current word verbatim |
| ShellQuote.EscapeNoQuote | lib/parse_launch_toml.py:61 | a word without single quotes is left as it is inside the quotes |
| ShellQuote.EscapeFirstQuote | lib/parse_launch_toml.py:61 | for every quote-free text before a word's first single quote, that text is kept, the quote becomes `'"'"'`, and the rest is escaped in turn |
| ShellQuote.EscapeKeepsNul | lib/parse_launch_toml.py:61 | escaping keeps any NUL of the word |
| ShellQuote.QuoteKeepsNul | lib/parse_launch_toml.py:61 | the quoted form of a word holding NUL holds NUL too |
| ShellQuote.JoinKeepsNul | lib/parse_launch_toml.py:61 | the joined line of a list with a word holding NUL holds NUL too |
| ShellQuote.NulRefused | lib/parse_launch_toml.py:61 | a command line holding NUL anywhere, quoted or not, is refused by the splitter |
| ShellQuote.EscapedQuoteSplits | lib/parse_launch_toml.py:61 | a shell reads `'"'"'` inside a single-quoted word as one single quote of the same word, when the text before it holds no NUL |
| ShellQuote.EscapedSplits | lib/parse_launch_toml.py:61 | a NUL-free word quoted with every `'` written as `'"'"'` reads back as that word |
| ShellQuote.QuoteSplits | lib/parse_launch_toml.py:61 | the quoted form of any NUL-free word, the empty word included, reads back as that word |
| ShellQuote.JoinSplitsFrom | lib/parse_launch_toml.py:61 | splitting a joined list of NUL-free words appends exactly its words to those already read |
| ShellQuote.JoinSplits | lib/parse_launch_toml.py:61 | a POSIX shell splits the `shlex.join` of any word list without NUL back into exactly that list; with a word holding NUL the line cannot be read at all |
| Text.IsSpace | lib/parse_launch_toml.py:38 | Python's `\s` in a `str` pattern: exactly the characters for which `str.isspace()` holds, the ASCII controls 9-13 and 28-31, space, and the Unicode separators |
| Text.Span | lib/parse_launch_toml.py:38 | a greedy run of a character class followed by the rest: the run is in the class, the rest does not start with a class character, and together they give back the input |
| Text.SpanExact | lib/parse_launch_toml.py:38 | a class run followed by a non-class character is split exactly there |
| Text.FirstMatch | lib/parse_launch_toml.py:38 | the leftmost-first scan of `re.search` over start positions; its contract is `Text.FirstMatchSpec` |
| Text.FirstMatchSpec | lib/parse_launch_toml.py:38 | the leftmost position where the matcher succeeds, with its result; no position before it succeeds |
| Text.Find | lib/parse_launch_toml.py:34 | the leftmost occurrence of a literal at or after a position, and none exactly when there is no occurrence |
| Cli.ReadProcesses | lib/parse_launch_toml.py:24-28 | the result of `parse_processes`: only an undecodable file escapes as an exception, and an unreadable one gives the empty dictionary |
| Cli.YamlLine | lib/parse_launch_toml.py:85 | one printed `  type: command` line, newline included; `Cli.YamlEntry` places it in the output |
| Cli.YamlLinesAppend | lib/parse_launch_toml.py:84-85 | the printed entry lines of two dictionaries are the lines of their concatenation |
| Cli.Yaml | lib/parse_launch_toml.py:81-85 | nothing is printed exactly when the dictionary is empty; otherwise the output starts with the header |
| Cli.YamlEntry | lib/parse_launch_toml.py:83-85 | each entry's `  type: command` line comes after the header and the lines of the entries before it, and before the lines of the entries after it |
| Cli.Dispatch | lib/parse_launch_toml.py:81-99 | the mode dispatch never raises (printing aside), never exits 0 with the usage line, and anything printed comes with exit 0 |
| Cli.Main | lib/parse_launch_toml.py:66-99 | a wrong argument count gives the usage line and 1; a missing path gives 1 silently; the status is 0 or 1; a traceback happens exactly when the file cannot be decoded (under the assumptions on the Python version, on `exists()` and on printing listed below) |
| Cli.YamlExtraArgument | lib/parse_launch_toml.py:67-85 | with `--yaml` a fourth argument changes nothing: the run is the one without it |
| Cli.UsageIff | lib/parse_launch_toml.py:67-99 | the usage line is printed exactly for a wrong argument count, or for a file that exists and is not undecodable (its read may have raised `OSError`) with a mode other than `--yaml` and `--process <type>` |
| Cli.YamlDispatch | lib/parse_launch_toml.py:81-85 | `--yaml` exits 0 on any dictionary, prints nothing exactly when it is empty, and prints a line for every entry |
| Cli.ProcessDispatch | lib/parse_launch_toml.py:87-92 | `--process <type>` prints `c` exactly when the type maps to the non-empty command `c`, and exits 1 with no output exactly when the type is missing or maps to the empty command |
| Cli.EmptyIffNoEntry | lib/parse_launch_toml.py:30-63 | the dictionary is empty exactly when no block yields an entry |
| Cli.YamlMode | lib/parse_launch_toml.py:74-85 | on a readable file `--yaml` exits 0 silently with the YAML rendering of the parsed dictionary, and prints nothing exactly when no block yields an entry |
| Cli.ProcessMode | lib/parse_launch_toml.py:74-92 | on a readable file `--process <type>` prints `c` exactly when `c` is non-empty and the last block yielding that type yields `c`, and exits 1 with no output exactly when no block yields the type or the last one yields an empty command |

## Left out

- Reading the file (lib/parse_launch_toml.py:24-28) is an input, not a computation. `Cli.ReadResult` has three cases: the text, an `OSError` (which `parse_processes` catches and turns into `{}`), or a `UnicodeDecodeError`. The last one is not caught, so the program ends with a traceback and status 1. The text is the text after `open`'s universal-newline translation.
- `Path(...).exists()` becomes a boolean parameter of `Cli.Main`. A path can exist and still be unreadable, for example a directory; that is the `Unreadable` case.
- Cli.Main: assumes that `exists()` returns rather than raises. `pathlib` re-raises an `OSError` other than a missing file or a bad path (a permission error on a parent directory, a name that is too long), which would end the program with a traceback at lib/parse_launch_toml.py:76; the model's `Traceback` covers only the decode error.
- Cli.Main: assumes Python 3.8 or later. The module docstring (lib/parse_launch_toml.py:9) promises 3.7, but `shlex.join` at lib/parse_launch_toml.py:61 only exists from 3.8, so on 3.7 every entry whose command is not `bash -c` raises `AttributeError`. The model gives `shlex.join` its 3.8 meaning throughout.
- Cli.Main: assumes printing succeeds. `print` at lib/parse_launch_toml.py:83, :85 and :90 can raise `UnicodeEncodeError` when standard output cannot encode a character of a type or command, giving a traceback and status 1 on a file that decoded fine, and a closed standard output makes the exit status 120; the model has neither.
- `sys.argv`, `print` and `sys.exit` become the `Cli.Outcome` value. The usage text and the traceback are represented by their kind (`UsageLine`, `Traceback`), not their exact characters.
- The model has no general regular-expression engine. Each of the four fixed patterns is written as a dedicated matcher. For these patterns backtracking never changes the outcome: every greedy run is followed by a character its class excludes, and the lazy `.*?` of lib/parse_launch_toml.py:45, which with `re.DOTALL` can also match `]`, stops at the first `]` after the `[`, which is what `Fields.BracketedHere` captures.
- The TOML grammar itself is not modelled; the program does not parse TOML either, so comments, inline tables or `type` inside other keys are matched exactly as the regular expressions would match them.
- ShellQuote.Split: this is not a full shell tokenizer. It handles blanks (space and tab), single quotes, double quotes without `\`, `$` or backquotes, and unquoted ordinary characters (`ShellQuote.IsOrdinary`). It gives up on a backslash, a newline or another special character outside quotes; an unquoted newline ends a command in the shell (section 2.3 and 2.10.1 of the Shell Command Language), so a command line that holds one is not one list of words. `=` and `%` count as ordinary: section 2.2 makes them special only in an assignment before the command name and in job-control arguments, which word splitting does not involve. A shell running the joined line would still read a first word such as `A=b` as an assignment; the round trip is about the words, not about how the shell then runs them. Reserved words are the same: a first word such as a bare `if` is recognised by the shell grammar after splitting, not by the splitting itself. The splitter refuses NUL, quoted or not, because a shell reads its commands from a text file, which holds no NUL (section 3.403 of the Base Definitions volume of POSIX.1-2017), or from a command string or argument, which ends at the first NUL. That is enough to read back every output of `shlex.join` whose words hold no NUL, which is all the model claims.
- Launch.ParseProcesses: its own contract covers only the case with no header. The contents of the dictionary are stated by `Launch.LastBlockWins`, `Launch.TypesInFirstSeenOrder` and `Cli.EmptyIffNoEntry`.

=== FILE: blocks.dfy ===
/** Block splitting: `re.split(r'\[\[processes\]\]', content)[1:]`
    (lib/parse_launch_toml.py:34). The text is cut at every occurrence of the
    table-array header, scanning left to right, and the piece before the first
    header is thrown away. */
module Blocks {
  import opened Wrappers
  import opened Text

  /** The table-array header that opens each process entry. */
  const Marker: string := "[[processes]]"

  /** The pieces glued back together with `w` between neighbours; the inverse
      of `SplitOn`. */
  function JoinWith(ps: seq<string>, w: string): string
  {
    if |ps| == 0 then ""
    else if |ps| == 1 then ps[0]
    else ps[0] + w + JoinWith(ps[1..], w)
  }

  /** `re.split` with a literal, non-empty pattern: the text between successive
      leftmost, non-overlapping occurrences of `w`. There is always at least one
      piece. */
  function SplitOn(s: string, w: string): (r: seq<string>)
    requires |w| > 0
    ensures |r| >= 1
    decreases |s|
  {
    match Find(s, w, 0)
    case None => [s]
    case Some(i) => [s[..i]] + SplitOn(s[i + |w|..], w)
  }

  /** The pieces rebuild the text, and no piece holds the pattern. */
  lemma {:induction false} SplitOnSpec(s: string, w: string)
    requires |w| > 0
    ensures JoinWith(SplitOn(s, w), w) == s
    ensures forall k :: 0 <= k < |SplitOn(s, w)| ==> !Occurs(SplitOn(s, w)[k], w)
    decreases |s|
  {
    match Find(s, w, 0)
    case None =>
    case Some(i) =>
      var head := s[..i];
      var rest := s[i + |w|..];
      var tail := SplitOn(rest, w);
      var r := SplitOn(s, w);
      assert r == [head] + tail;
      SplitOnSpec(rest, w);
      assert r[1..] == tail;
      calc {
        JoinWith(r, w);
        head + w + JoinWith(tail, w);
        head + w + rest;
        { assert s[i..i + |w|] == w; Slices3(s, i, i + |w|); }
        s;
      }
      assert !Occurs(head, w) by {
        forall j: nat | HasAt(head, j, w) ensures HasAt(s, j, w) {
          HasAtPrefix(s, i, j, w);
        }
      }
      forall k | 0 <= k < |r|
        ensures !Occurs(r[k], w)
      {
        if k > 0 {
          assert r[k] == tail[k - 1];
        }
      }
  }

  /** The blocks the parser visits: one per header occurrence, in document order,
      each running up to the next header or the end of the text. */
  function ProcessBlocks(content: string): seq<string>
  {
    SplitOn(content, Marker)[1..]
  }

  /** Nothing before the first header survives, a text without a header has
      no blocks, and the text is the dropped prefix followed by the blocks,
      each introduced by the header. */
  lemma ProcessBlocksSpec(content: string)
    ensures var r := ProcessBlocks(content);
            && (r == [] <==> !Occurs(content, Marker))
            && (forall k :: 0 <= k < |r| ==> !Occurs(r[k], Marker))
            && exists pre :: && !Occurs(pre, Marker)
                             && content == if r == [] then pre else pre + Marker + JoinWith(r, Marker)
  {
    var pieces := SplitOn(content, Marker);
    SplitOnSpec(content, Marker);
    var r := pieces[1..];
    if r == [] {
      assert content == pieces[0];
    } else {
      assert content == pieces[0] + Marker + JoinWith(r, Marker);
      assert HasAt(content, |pieces[0]|, Marker);
    }
  }

  /** No proper prefix of the header is also a suffix of it: two occurrences
      of the header can never overlap. */
  lemma MarkerUnbordered(d: nat)
    requires 1 <= d < |Marker|
    ensures Marker[d] != Marker[0] || Marker[d + 1] != Marker[1]
  {
  }

  /** Whatever precedes the first header is irrelevant: prefixing a header-free
      text changes no block. */
  lemma PrefixIgnored(pre: string, rest: string)
    requires !Occurs(pre, Marker)
    ensures ProcessBlocks(pre + Marker + rest) == ProcessBlocks(Marker + rest)
  {
    var content := pre + Marker + rest;
    assert HasAt(content, |pre|, Marker);
    forall j: nat | j < |pre|
      ensures !HasAt(content, j, Marker)
    {
      if HasAt(content, j, Marker) {
        if j + |Marker| <= |pre| {
          assert HasAt(pre, j, Marker);
          assert false;
        } else {
          var d := |pre| - j;
          var here, there := content[j..j + |Marker|], content[|pre|..|pre| + |Marker|];
          assert here == Marker && there == Marker;
          assert here[d] == content[|pre|] == there[0];
          assert d + 1 < |Marker| ==> here[d + 1] == content[|pre| + 1] == there[1];
          MarkerUnbordered(d);
          assert false;
        }
      }
    }
    assert Find(content, Marker, 0) == Some(|pre|);
    assert content[|pre| + |Marker|..] == rest;
    assert Find(Marker + rest, Marker, 0) == Some(0);
    assert (Marker + rest)[|Marker|..] == rest;
  }
}

=== FILE: cli.dfy ===
/** `main` (lib/parse_launch_toml.py:66-99) as a pure function. The command
    line, the existence test of the path and the outcome of reading the file
    are inputs; what would be printed and the exit status are the result. */
module Cli {
  import opened Wrappers
  import opened OrderedMap
  import opened Text
  import opened Blocks
  import opened Launch

  /** What `open(...).read()` produced. `Unreadable` is an `OSError`, which
      `parse_processes` swallows; `Undecodable` is a `UnicodeDecodeError`, a
      `ValueError` nobody catches. */
  datatype ReadResult = Contents(text: string) | Unreadable | Undecodable

  /** What reaches standard error: nothing, the usage line, or the traceback
      of an uncaught exception. */
  datatype ErrorOutput = Silent | UsageLine | Traceback

  datatype Outcome = Outcome(stdout: string, stderr: ErrorOutput, status: int)

  const Header: string := "---\ndefault_process_types:\n"

  /** One `print(f"  {proc_type}: {command}")`. */
  function YamlLine(entry: (string, string)): string {
    "  " + entry.0 + ": " + entry.1 + "\n"
  }

  function YamlLines(m: Dict): string {
    if m == [] then "" else YamlLine(m[0]) + YamlLines(m[1..])
  }

  /** The lines of two dictionaries printed one after the other are the lines
      of their concatenation. */
  lemma {:induction false} YamlLinesAppend(a: Dict, b: Dict)
    ensures YamlLines(a + b) == YamlLines(a) + YamlLines(b)
    decreases |a|
  {
    if a != [] {
      calc {
        YamlLines(a + b);
        { assert (a + b)[0] == a[0] && (a + b)[1..] == a[1..] + b; }
        YamlLine(a[0]) + YamlLines(a[1..] + b);
        { YamlLinesAppend(a[1..], b); }
        YamlLine(a[0]) + YamlLines(a[1..]) + YamlLines(b);
      }
    } else {
      assert a + b == b;
    }
  }

  /** The `--yaml` output (lib/parse_launch_toml.py:81-85): nothing for an
      empty dictionary, otherwise the header and one line per entry in
      iteration order. */
  function Yaml(m: Dict): (r: string)
    ensures r == [] <==> m == []
    ensures m != [] ==> |r| >= |Header| && r[..|Header|] == Header
  {
    if m == [] then "" else Header + YamlLines(m)
  }

  /** Every entry gets its own line, after the lines of the entries before it
      and before the lines of the entries after it. */
  lemma YamlEntry(m: Dict, i: nat)
    requires i < |m|
    ensures Yaml(m) == Header + YamlLines(m[..i]) + YamlLine(m[i]) + YamlLines(m[i + 1..])
  {
    var before, after := m[..i], [m[i]] + m[i + 1..];
    assert m == before + after;
    YamlLinesAppend(before, after);
    assert after[0] == m[i] && after[1..] == m[i + 1..];
    var lines, line, rest := YamlLines(before), YamlLine(m[i]), YamlLines(m[i + 1..]);
    assert YamlLines(after) == line + rest;
    Regroup(Header, lines, line, rest);
  }

  /** The dictionary `parse_processes` returns, or `None` when reading the file
      raised an exception that escapes it. */
  function ReadProcesses(file: ReadResult): (r: Option<Dict>)
    ensures r.None? <==> file.Undecodable?
    ensures file.Unreadable? ==> r == Some([])
  {
    match file
    case Contents(text) => Some(ParseProcesses(text))
    case Unreadable => Some([])
    case Undecodable => None
  }

  /** The mode dispatch of `main` (lib/parse_launch_toml.py:81-99) once the
      dictionary is known. */
  function Dispatch(argv: seq<string>, processes: Dict): (r: Outcome)
    requires |argv| == 3 || |argv| == 4
    ensures r.status == 0 ==> r.stderr == Silent
    ensures r.stdout != "" ==> r.status == 0
    ensures r.stderr != Traceback
  {
    if argv[2] == "--yaml" then Outcome(Yaml(processes), Silent, 0)
    else if argv[2] == "--process" && |argv| == 4 then
      match Get(processes, argv[3])
      case Some(command) =>
        if command != "" then Outcome(command + "\n", Silent, 0)
        else Outcome("", Silent, 1)
      case None => Outcome("", Silent, 1)
    else Outcome("", UsageLine, 1)
  }

  /** `main` with `argv` standing for `sys.argv` (program name included). */
  function Main(argv: seq<string>, pathExists: bool, file: ReadResult): (r: Outcome)
    ensures |argv| != 3 && |argv| != 4 ==> r == Outcome("", UsageLine, 1)
    ensures (|argv| == 3 || |argv| == 4) && !pathExists ==> r == Outcome("", Silent, 1)
    ensures r.status == 0 || r.status == 1
    ensures r.status == 0 ==> r.stderr == Silent
    ensures r.stdout != "" ==> r.status == 0
    ensures r.stderr == Traceback <==> (|argv| == 3 || |argv| == 4) && pathExists && file.Undecodable?
  {
    if |argv| != 3 && |argv| != 4 then Outcome("", UsageLine, 1)
    else if !pathExists then Outcome("", Silent, 1)
    else
      match ReadProcesses(file)
      case None => Outcome("", Traceback, 1)
      case Some(processes) => Dispatch(argv, processes)
  }

  /** With `--yaml` a fourth argument is ignored: the run is the one without it. */
  lemma YamlExtraArgument(argv: seq<string>, pathExists: bool, file: ReadResult)
    requires |argv| == 4 && argv[2] == "--yaml"
    ensures Main(argv, pathExists, file) == Main(argv[..3], pathExists, file)
  {
  }

  /** The usage line goes to standard error exactly when the argument count
      is wrong, or when the file was read but the mode is neither `--yaml` nor
      `--process` with a type. */
  lemma UsageIff(argv: seq<string>, pathExists: bool, file: ReadResult)
    ensures Main(argv, pathExists, file).stderr == UsageLine <==>
            || (|argv| != 3 && |argv| != 4)
            || (&& (|argv| == 3 || |argv| == 4) && pathExists && !file.Undecodable?
                && argv[2] != "--yaml" && !(argv[2] == "--process" && |argv| == 4))
  {
  }

  /** The `--yaml` branch on any dictionary: success, and no output exactly
      when the dictionary is empty. */
  lemma YamlDispatch(argv: seq<string>, m: Dict)
    requires (|argv| == 3 || |argv| == 4) && argv[2] == "--yaml"
    ensures Dispatch(argv, m) == Outcome(Yaml(m), Silent, 0)
    ensures Dispatch(argv, m).stdout == "" <==> m == []
    ensures forall i :: 0 <= i < |m| ==> Occurs(Dispatch(argv, m).stdout, YamlLine(m[i]))
  {
    forall i | 0 <= i < |m| ensures Occurs(Yaml(m), YamlLine(m[i])) {
      YamlEntry(m, i);
      var at := |Header + YamlLines(m[..i])|;
      assert HasAt(Yaml(m), at, YamlLine(m[i]));
    }
  }

  /** The `--process` branch on any dictionary: it prints `c` exactly when the
      type maps to the non-empty command `c`, and it exits 1 without output
      exactly when the type is missing or maps to the empty command. */
  lemma ProcessDispatch(argv: seq<string>, m: Dict, c: string)
    requires |argv| == 4 && argv[2] == "--process"
    ensures Dispatch(argv, m) == Outcome(c + "\n", Silent, 0) <==> c != "" && Get(m, argv[3]) == Some(c)
    ensures Dispatch(argv, m).status == 1 <==> Dispatch(argv, m) == Outcome("", Silent, 1)
    ensures Dispatch(argv, m) == Outcome("", Silent, 1) <==>
            Get(m, argv[3]).None? || Get(m, argv[3]) == Some("")
  {
    if Dispatch(argv, m) == Outcome(c + "\n", Silent, 0) {
      var command := Get(m, argv[3]).value;
      assert command + "\n" == c + "\n";
      assert command == (command + "\n")[..|command|];
      assert c == (c + "\n")[..|c|];
    }
  }

  /** A block list with no entry leaves the dictionary empty, and one with an
      entry does not. */
  lemma EmptyIffNoEntry(text: string)
    ensures var us := Updates(ProcessBlocks(text));
            ParseProcesses(text) == [] <==> forall i :: 0 <= i < |us| ==> us[i].None?
  {
    ApplyEmpty(Updates(ProcessBlocks(text)));
  }

  /** `--yaml` always succeeds on a readable file; it prints nothing exactly
      when no block yields an entry, and otherwise one line per process type. */
  lemma YamlMode(argv: seq<string>, text: string)
    requires (|argv| == 3 || |argv| == 4) && argv[2] == "--yaml"
    ensures Main(argv, true, Contents(text)) == Outcome(Yaml(ParseProcesses(text)), Silent, 0)
    ensures var us := Updates(ProcessBlocks(text));
            Main(argv, true, Contents(text)).stdout == "" <==> forall i :: 0 <= i < |us| ==> us[i].None?
  {
    var m := ParseProcesses(text);
    assert Main(argv, true, Contents(text)) == Dispatch(argv, m);
    YamlDispatch(argv, m);
    EmptyIffNoEntry(text);
  }

  /** `--process <type>` prints the command of the last block that yields an
      entry for the type, and exits 1 without output exactly when there is
      none or that command is empty (a `bash -c ""` entry, say). */
  lemma ProcessMode(argv: seq<string>, text: string, c: string)
    requires |argv| == 4 && argv[2] == "--process"
    ensures var us := Updates(ProcessBlocks(text));
            Main(argv, true, Contents(text)) == Outcome(c + "\n", Silent, 0) <==>
              && c != ""
              && exists i :: && 0 <= i < |us| && us[i] == Some((argv[3], c))
                             && forall j :: i < j < |us| ==> !Writes(us[j], argv[3])
    ensures var us := Updates(ProcessBlocks(text));
            Main(argv, true, Contents(text)) == Outcome("", Silent, 1) <==>
              LastWrite(us, argv[3]).None? || LastWrite(us, argv[3]) == Some("")
  {
    var m := ParseProcesses(text);
    assert Main(argv, true, Contents(text)) == Dispatch(argv, m);
    ProcessDispatch(argv, m, c);
    LastBlockWins(text, argv[3], c);
    ApplyLastWrite(Updates(ProcessBlocks(text)), argv[3]);
  }
}

=== FILE: fields.dfy ===
/** Field extraction inside one block (lib/parse_launch_toml.py:38-55): the
    `type` value, the body of the `command` array, and the quoted literals in
    that body. Each regular expression is written as a matcher that decides
    whether the pattern matches at the front of a text, plus the leftmost
    search of `re.search`. The matchers are deterministic: every greedy run in
    these patterns must be followed by a character the run cannot contain, so
    backtracking never finds a second way to match. */
module Fields {
  import opened Wrappers
  import opened Text

  /** A string of `\s` characters only. */
  predicate Spaces(s: string) {
    All(s, IsSpace)
  }

  /** The character class `[^\]]`. */
  predicate NotCloseBracket(c: char) {
    c != ']'
  }

  /** `key\s*=\s*` at the front of `u`: what follows the assignment sign and
      the blanks after it. Both field patterns begin this way. */
  function AssignHere(u: string, key: string): Option<string>
  {
    if !(|key| <= |u| && u[..|key|] == key) then None
    else
      var (_, v) := Span(u[|key|..], IsSpace);
      if v == [] || v[0] != '=' then None
      else Some(Span(v[1..], IsSpace).1)
  }

  lemma AssignHereAccepts(key: string, sp1: string, sp2: string, rest: string)
    requires Spaces(sp1) && Spaces(sp2)
    requires rest == [] || !IsSpace(rest[0])
    ensures AssignHere(key + (sp1 + ("=" + (sp2 + rest))), key) == Some(rest)
  {
    var v := "=" + (sp2 + rest);
    var u := key + (sp1 + v);
    assert u[..|key|] == key;
    assert u[|key|..] == sp1 + v;
    SpanExact(sp1, v, IsSpace);
    assert v[1..] == sp2 + rest;
    SpanExact(sp2, rest, IsSpace);
  }

  lemma AssignHereSound(u: string, key: string) returns (sp1: string, sp2: string)
    requires AssignHere(u, key).Some?
    ensures Spaces(sp1) && Spaces(sp2)
    ensures u == key + (sp1 + ("=" + (sp2 + AssignHere(u, key).value)))
  {
    var t := u[|key|..];
    var v;
    sp1, v := Span(t, IsSpace).0, Span(t, IsSpace).1;
    sp2 := Span(v[1..], IsSpace).0;
    assert v == "=" + v[1..];
    assert u == u[..|key|] + t;
  }

  /** `["\']([^"\']+)["\']` at the front of `w`, giving group 1: a non-empty
      run of non-quote characters between two quote characters. */
  function QuotedHere(w: string): (r: Option<string>)
    ensures r.Some? ==> |r.value| > 0 && QuoteFree(r.value)
  {
    if w == [] || !IsQuote(w[0]) then None
    else
      var (t, y) := Span(w[1..], NotQuote);
      if y == [] || t == [] then None
      else Some(t)
  }

  lemma QuotedHereAccepts(q1: char, t: string, q2: char, rest: string)
    requires IsQuote(q1) && IsQuote(q2)
    requires |t| > 0 && QuoteFree(t)
    ensures QuotedHere([q1] + (t + ([q2] + rest))) == Some(t)
  {
    assert ([q1] + (t + ([q2] + rest)))[1..] == t + ([q2] + rest);
    SpanExact(t, [q2] + rest, NotQuote);
  }

  lemma QuotedHereSound(w: string) returns (q1: char, q2: char, rest: string)
    requires QuotedHere(w).Some?
    ensures IsQuote(q1) && IsQuote(q2)
    ensures w == [q1] + (QuotedHere(w).value + ([q2] + rest))
  {
    var y := Span(w[1..], NotQuote).1;
    q1, q2, rest := w[0], y[0], y[1..];
    assert y == [q2] + rest;
    assert w == [q1] + w[1..];
  }

  /** `type\s*=\s*["\']([^"\']+)["\']` at the front of `u`, giving group 1.
      The value is never empty and holds no quote character. */
  function TypeHere(u: string): (r: Option<string>)
    ensures r.Some? ==> |r.value| > 0 && QuoteFree(r.value)
  {
    match AssignHere(u, "type")
    case None => None
    case Some(w) => QuotedHere(w)
  }

  /** The type pattern tried at position `i` of a block. */
  function TypeAt(s: string, i: nat): Option<string>
  {
    if i <= |s| then TypeHere(s[i..]) else None
  }

  /** The matcher accepts every text laid out as the pattern describes, and
      yields the quoted value. */
  lemma TypeHereAccepts(sp1: string, sp2: string, q1: char, t: string, q2: char, rest: string)
    requires Spaces(sp1) && Spaces(sp2)
    requires IsQuote(q1) && IsQuote(q2)
    requires |t| > 0 && QuoteFree(t)
    ensures TypeHere("type" + (sp1 + ("=" + (sp2 + ([q1] + (t + ([q2] + rest))))))) == Some(t)
  {
    AssignHereAccepts("type", sp1, sp2, [q1] + (t + ([q2] + rest)));
    QuotedHereAccepts(q1, t, q2, rest);
  }

  /** Conversely, whatever the matcher accepts has that layout. */
  lemma TypeHereSound(u: string) returns (sp1: string, sp2: string, q1: char, q2: char, rest: string)
    requires TypeHere(u).Some?
    ensures Spaces(sp1) && Spaces(sp2) && IsQuote(q1) && IsQuote(q2)
    ensures u == "type" + (sp1 + ("=" + (sp2 + ([q1] + (TypeHere(u).value + ([q2] + rest))))))
  {
    sp1, sp2 := AssignHereSound(u, "type");
    q1, q2, rest := QuotedHereSound(AssignHere(u, "type").value);
  }

  /** `re.search` with the type pattern: the value found at the first position
      where the pattern matches. */
  function FindType(block: string): Option<string>
  {
    match FirstMatch(|block|, 0, (i: nat) => TypeAt(block, i))
    case None => None
    case Some((_, t)) => Some(t)
  }

  /** `FindType` fails exactly when the pattern matches nowhere, and otherwise
      returns what it matches at the leftmost position where it does. */
  lemma FindTypeSpec(block: string)
    ensures FindType(block).None? <==> forall i: nat :: TypeAt(block, i).None?
    ensures FindType(block).Some? ==> exists i: nat :: && TypeAt(block, i) == FindType(block)
                                                    && forall j: nat :: j < i ==> TypeAt(block, j).None?
  {
    var m := (i: nat) => TypeAt(block, i);
    assert forall i: nat :: m(i) == TypeAt(block, i);
    FirstMatchSpec(|block|, 0, m);
  }

  /** `\[(.*?)\]` (with `re.DOTALL`) at the front of `w`, giving group 1: the
      text after the opening bracket up to the first closing bracket. */
  function BracketedHere(w: string): (r: Option<string>)
    ensures r.Some? ==> All(r.value, NotCloseBracket)
  {
    if w == [] || w[0] != '[' then None
    else
      var (body, y) := Span(w[1..], NotCloseBracket);
      if y == [] then None
      else Some(body)
  }

  lemma BracketedHereAccepts(body: string, rest: string)
    requires All(body, NotCloseBracket)
    ensures BracketedHere("[" + (body + ("]" + rest))) == Some(body)
  {
    assert ("[" + (body + ("]" + rest)))[1..] == body + ("]" + rest);
    SpanExact(body, "]" + rest, NotCloseBracket);
  }

  lemma BracketedHereSound(w: string) returns (rest: string)
    requires BracketedHere(w).Some?
    ensures w == "[" + (BracketedHere(w).value + ("]" + rest))
  {
    var y := Span(w[1..], NotCloseBracket).1;
    rest := y[1..];
    assert y == "]" + rest;
    assert w == "[" + w[1..];
  }

  /** `command\s*=\s*\[(.*?)\]` at the front of `u`, giving group 1: the text
      from the opening bracket up to the first closing bracket after it, which
      therefore holds no `]`. */
  function CommandHere(u: string): (r: Option<string>)
    ensures r.Some? ==> All(r.value, NotCloseBracket)
  {
    match AssignHere(u, "command")
    case None => None
    case Some(w) => BracketedHere(w)
  }

  /** The command pattern tried at position `i` of a block. */
  function CommandAt(s: string, i: nat): Option<string>
  {
    if i <= |s| then CommandHere(s[i..]) else None
  }

  /** The matcher accepts every text laid out as the pattern describes, and
      yields the array body. */
  lemma CommandHereAccepts(sp1: string, sp2: string, body: string, rest: string)
    requires Spaces(sp1) && Spaces(sp2)
    requires All(body, NotCloseBracket)
    ensures CommandHere("command" + (sp1 + ("=" + (sp2 + ("[" + (body + ("]" + rest))))))) == Some(body)
  {
    AssignHereAccepts("command", sp1, sp2, "[" + (body + ("]" + rest)));
    BracketedHereAccepts(body, rest);
  }

  /** Conversely, whatever the matcher accepts has that layout. */
  lemma CommandHereSound(u: string) returns (sp1: string, sp2: string, rest: string)
    requires CommandHere(u).Some?
    ensures Spaces(sp1) && Spaces(sp2)
    ensures u == "command" + (sp1 + ("=" + (sp2 + ("[" + (CommandHere(u).value + ("]" + rest))))))
  {
    sp1, sp2 := AssignHereSound(u, "command");
    rest := BracketedHereSound(AssignHere(u, "command").value);
  }

  /** `re.search` with the command pattern: the array body found at the first
      position where the pattern matches. */
  function FindCommand(block: string): Option<string>
  {
    match FirstMatch(|block|, 0, (i: nat) => CommandAt(block, i))
    case None => None
    case Some((_, body)) => Some(body)
  }

  /** `FindCommand` fails exactly when the pattern matches nowhere, and otherwise
      returns what it matches at the leftmost position where it does. */
  lemma FindCommandSpec(block: string)
    ensures FindCommand(block).None? <==> forall i: nat :: CommandAt(block, i).None?
    ensures FindCommand(block).Some? ==> exists i: nat :: && CommandAt(block, i) == FindCommand(block)
                                                    && forall j: nat :: j < i ==> CommandAt(block, j).None?
  {
    var m := (i: nat) => CommandAt(block, i);
    assert forall i: nat :: m(i) == CommandAt(block, i);
    FirstMatchSpec(|block|, 0, m);
  }

  /** The number of quote characters of either kind in `u`. */
  function CountQuotes(u: string): nat
  {
    if u == [] then 0
    else (if IsQuote(u[0]) then 1 else 0) + CountQuotes(u[1..])
  }

  lemma {:induction false} CountQuotesAppend(a: string, b: string)
    ensures CountQuotes(a + b) == CountQuotes(a) + CountQuotes(b)
    decreases |a|
  {
    if a == [] {
      assert a + b == b;
    } else {
      assert (a + b)[1..] == a[1..] + b;
      CountQuotesAppend(a[1..], b);
    }
  }

  lemma {:induction false} CountQuotesFree(a: string)
    requires QuoteFree(a)
    ensures CountQuotes(a) == 0
    decreases |a|
  {
    if a != [] {
      CountQuotesFree(a[1..]);
    }
  }

  /** `re.findall(r'["\']([^"\']*)["\']', body)`: the runs between the first and
      second quote characters, the third and fourth, and so on. Text outside
      such a pair is skipped, and so is a final unpaired quote. A literal
      never holds a quote character. */
  function Literals(u: string): (r: seq<string>)
    ensures forall k :: 0 <= k < |r| ==> QuoteFree(r[k])
    decreases |u|
  {
    var y := Span(u, NotQuote).1;
    if y == [] then []
    else
      var (lit, z) := Span(y[1..], NotQuote);
      if z == [] then []
      else [lit] + Literals(z[1..])
  }

  /** One step of the closed form: the first literal is the text between the
      first two quote characters, and the scan resumes after the second. */
  lemma LiteralsStep(gap: string, q1: char, lit: string, q2: char, rest: string)
    requires QuoteFree(gap) && QuoteFree(lit)
    requires IsQuote(q1) && IsQuote(q2)
    ensures Literals(gap + ([q1] + (lit + ([q2] + rest)))) == [lit] + Literals(rest)
  {
    var z := [q2] + rest;
    var y := [q1] + (lit + z);
    SpanExact(gap, y, NotQuote);
    assert y[1..] == lit + z;
    SpanExact(lit, z, NotQuote);
    assert z[1..] == rest;
  }

  /** A text with fewer than two quote characters holds no literal. */
  lemma LiteralsNone(u: string)
    requires CountQuotes(u) < 2
    ensures Literals(u) == []
  {
    LiteralsCount(u);
  }

  /** The number of literals is the number of quote characters halved, rounded
      down: an unpaired trailing quote is ignored. */
  lemma {:induction false} LiteralsCount(u: string)
    ensures |Literals(u)| == CountQuotes(u) / 2
    decreases |u|
  {
    var (gap, y) := Span(u, NotQuote);
    CountQuotesAppend(gap, y);
    CountQuotesFree(gap);
    if y != [] {
      var (lit, z) := Span(y[1..], NotQuote);
      assert y == [y[0]] + (lit + z);
      CountQuotesAppend([y[0]], lit + z);
      CountQuotesAppend(lit, z);
      CountQuotesFree(lit);
      if z != [] {
        assert z == [z[0]] + z[1..];
        CountQuotesAppend([z[0]], z[1..]);
        LiteralsCount(z[1..]);
      }
    }
  }

  /** The body of a TOML array of basic strings, `"a", "b", "c"`, each element
      preceded by `sep` (the first) or by `, ` (the others). */
  function RenderArray(parts: seq<string>, sep: string): string
  {
    if parts == [] then ""
    else sep + ("\"" + (parts[0] + ("\"" + RenderArray(parts[1..], ", "))))
  }

  /** Round trip: the literals of a rendered array are the rendered strings,
      provided none of them holds a quote character. */
  lemma {:induction false} LiteralsOfRenderArray(parts: seq<string>, sep: string)
    requires QuoteFree(sep)
    requires forall k :: 0 <= k < |parts| ==> QuoteFree(parts[k])
    ensures Literals(RenderArray(parts, sep)) == parts
    decreases |parts|
  {
    if parts == [] {
      assert Literals("") == [];
    } else {
      LiteralsOfRenderArray(parts[1..], ", ");
      LiteralsStep(sep, '"', parts[0], '"', RenderArray(parts[1..], ", "));
      assert parts == [parts[0]] + parts[1..];
    }
  }
}

=== FILE: launch.dfy ===
/** `parse_processes` without its file read (lib/parse_launch_toml.py:30-63):
    the text of a `launch.toml` is cut into `[[processes]]` blocks, each block
    yields at most one process type with its command line, and the results
    are collected in an insertion-ordered dictionary where a later block
    overrides an earlier one. */
module Launch {
  import opened Wrappers
  import opened Text
  import opened Blocks
  import opened Fields
  import opened ShellQuote
  import opened OrderedMap

  /** The command array is `["bash", "-c", script, ...]`. */
  predicate IsBashScript(parts: seq<string>) {
    |parts| >= 3 && parts[0] == "bash" && parts[1] == "-c"
  }

  /** The source's test `command_parts[:2] == ["bash", "-c"]`, with at least
      three parts, is `IsBashScript`. */
  lemma BashPrefix(parts: seq<string>)
    ensures (|parts| >= 3 && parts[..2] == ["bash", "-c"]) <==> IsBashScript(parts)
  {
    if |parts| >= 3 {
      assert parts[..2] == [parts[0], parts[1]];
    }
  }

  /** The command line recorded for an array of command parts
      (lib/parse_launch_toml.py:58-61). A `bash -c` array gives its script
      untouched, dropping any later parts; any other array is joined with shell
      quoting so that a POSIX shell splits it back into the very same parts,
      unless a part holds NUL, which no shell can read. */
  function CommandLine(parts: seq<string>): (r: string)
    ensures IsBashScript(parts) ==> r == parts[2]
    ensures !IsBashScript(parts) && NulFree(parts) ==> Split(r) == Some(parts)
    ensures !IsBashScript(parts) && !NulFree(parts) ==> Split(r) == None
  {
    if IsBashScript(parts) then parts[2]
    else
      JoinSplits(parts);
      Join(parts)
  }

  /** The entry one block contributes, or `None` when the loop body reaches a
      `continue` (lib/parse_launch_toml.py:36-61). */
  function ParseBlock(block: string): (r: Option<(string, string)>)
    ensures r.None? <==> || FindType(block).None?
                         || FindCommand(block).None?
                         || CountQuotes(FindCommand(block).value) < 2
    ensures r.Some? ==> && r.value.0 == FindType(block).value
                        && |r.value.0| > 0 && QuoteFree(r.value.0)
  {
    match FindType(block)
    case None => None
    case Some(procType) =>
      FindTypeSpec(block);
      match FindCommand(block)
      case None => None
      case Some(body) =>
        var parts := Literals(body);
        LiteralsCount(body);
        if parts == [] then None
        else Some((procType, CommandLine(parts)))
  }

  /** The command a block records: the `bash -c` script verbatim, or else a
      command line a POSIX shell splits back into exactly the array's literals,
      empty ones included, when none of them holds NUL, and cannot read at all
      when one does. */
  lemma BlockCommand(block: string)
    requires ParseBlock(block).Some?
    ensures var parts := Literals(FindCommand(block).value);
            var command := ParseBlock(block).value.1;
            && (IsBashScript(parts) ==> command == parts[2])
            && (!IsBashScript(parts) && NulFree(parts) ==> Split(command) == Some(parts))
            && (!IsBashScript(parts) && !NulFree(parts) ==> Split(command) == None)
  {
  }

  /** The assignment each block performs, in document order. */
  function Updates(blocks: seq<string>): (us: seq<Option<(string, string)>>)
    ensures |us| == |blocks|
  {
    MapSeq(ParseBlock, blocks)
  }

  /** Each update is the entry of its own block. */
  lemma UpdatesSpec(blocks: seq<string>)
    ensures forall i :: 0 <= i < |blocks| ==> Updates(blocks)[i] == ParseBlock(blocks[i])
  {
    forall i | 0 <= i < |blocks|
      ensures Updates(blocks)[i] == ParseBlock(blocks[i])
    {
      MapSeqIndex(ParseBlock, blocks, i);
    }
  }

  /** `f` applied to every element, in order. */
  function MapSeq<A, B>(f: A -> B, xs: seq<A>): (ys: seq<B>)
    ensures |ys| == |xs|
    decreases |xs|
  {
    if xs == [] then [] else [f(xs[0])] + MapSeq(f, xs[1..])
  }

  /** The image of one element. */
  lemma {:induction false} MapSeqIndex<A, B>(f: A -> B, xs: seq<A>, i: nat)
    requires i < |xs|
    ensures MapSeq(f, xs)[i] == f(xs[i])
    decreases i
  {
    if i > 0 {
      MapSeqIndex(f, xs[1..], i - 1);
    }
  }

  /** Mapping distributes over concatenation. */
  lemma {:induction false} MapSeqAppend<A, B>(f: A -> B, xs: seq<A>, ys: seq<A>)
    ensures MapSeq(f, xs + ys) == MapSeq(f, xs) + MapSeq(f, ys)
    decreases |xs|
  {
    if xs == [] {
      assert xs + ys == ys;
    } else {
      assert (xs + ys)[0] == xs[0] && (xs + ys)[1..] == xs[1..] + ys;
      MapSeqAppend(f, xs[1..], ys);
    }
  }

  /** One more turn of the loop performs the next block's update. */
  lemma CollectStep(blocks: seq<string>, i: nat)
    requires i < |blocks|
    ensures Apply(Updates(blocks)[..i + 1]) == Step(Apply(Updates(blocks)[..i]), ParseBlock(blocks[i]))
  {
    ApplyPrefixStep(Updates(blocks), i);
    MapSeqIndex(ParseBlock, blocks, i);
  }

  /** `parse_processes` on the text of the file. */
  function ParseProcesses(content: string): (r: Dict)
    ensures !Occurs(content, Marker) ==> r == []
  {
    Apply(Updates(ProcessBlocks(content)))
  }

  /** The last block that yields an entry for a type decides its command; a
      type no block yields is absent. */
  lemma LastBlockWins(content: string, t: string, c: string)
    ensures var us := Updates(ProcessBlocks(content));
            Get(ParseProcesses(content), t).None? <==>
              forall i :: 0 <= i < |us| ==> !Writes(us[i], t)
    ensures var us := Updates(ProcessBlocks(content));
            Get(ParseProcesses(content), t) == Some(c) <==>
              exists i :: && 0 <= i < |us| && us[i] == Some((t, c))
                          && forall j :: i < j < |us| ==> !Writes(us[j], t)
  {
    ApplyGet(Updates(ProcessBlocks(content)), t, c);
  }

  /** Iterating the result visits each type once, in the order of the first
      block that yields it. */
  lemma TypesInFirstSeenOrder(content: string)
    ensures Distinct(Keys(ParseProcesses(content)))
    ensures var us := Updates(ProcessBlocks(content));
            var ks := Keys(ParseProcesses(content));
            forall p, q :: 0 <= p < q < |ks| ==> FirstWrite(us, ks[p]) < FirstWrite(us, ks[q])
  {
    var us := Updates(ProcessBlocks(content));
    ApplyKeysDistinct(us);
    ApplyKeysOrdered(us);
  }

  /** Text before the first header never contributes. */
  lemma PreambleIgnored(pre: string, rest: string)
    requires !Occurs(pre, Marker)
    ensures ParseProcesses(pre + Marker + rest) == ParseProcesses(Marker + rest)
  {
    PrefixIgnored(pre, rest);
  }

  /** A block that yields no entry can be cut out of the file without changing
      the result: it leaves the dictionary exactly as it found it. */
  lemma SkippedBlockInert(before: seq<string>, skipped: string, after: seq<string>)
    requires ParseBlock(skipped).None?
    ensures Apply(Updates(before + [skipped] + after)) == Apply(Updates(before + after))
  {
    MapSeqAppend(ParseBlock, before + [skipped], after);
    MapSeqAppend(ParseBlock, before, [skipped]);
    MapSeqAppend(ParseBlock, before, after);
    assert MapSeq(ParseBlock, [skipped]) == [None] by {
      assert [skipped][1..] == [];
    }
    ApplySkipAt(MapSeq(ParseBlock, before), MapSeq(ParseBlock, after));
  }

  /** The body of the loop in `parse_processes`, statement by statement, with
      its three `continue`s as early returns of `None`. */
  method ParseBlockSteps(block: string) returns (entry: Option<(string, string)>)
    ensures entry == ParseBlock(block)
  {
    var typeMatch := FindType(block);
    if typeMatch.None? {
      return None;
    }
    var procType := typeMatch.value;
    var commandMatch := FindCommand(block);
    if commandMatch.None? {
      return None;
    }
    var commandParts := Literals(commandMatch.value);
    if commandParts == [] {
      return None;
    }
    BashPrefix(commandParts);
    if |commandParts| >= 3 && commandParts[..2] == ["bash", "-c"] {
      entry := Some((procType, commandParts[2]));
    } else {
      entry := Some((procType, Join(commandParts)));
    }
  }

  /** The loop of `parse_processes` over the blocks: every block in turn,
      assigning into the dictionary whenever the block yields an entry. */
  method CollectLoop(blocks: seq<string>) returns (processes: Dict)
    ensures processes == Apply(Updates(blocks))
  {
    processes := [];
    ghost var us := Updates(blocks);
    var i := 0;
    while i < |blocks|
      invariant 0 <= i <= |blocks|
      invariant processes == Apply(us[..i])
    {
      var entry := ParseBlockSteps(blocks[i]);
      CollectStep(blocks, i);
      if entry.Some? {
        processes := Put(processes, entry.value.0, entry.value.1);
      }
      i := i + 1;
    }
    assert us[..|blocks|] == us;
  }

  /** `parse_processes` after the read: split, then run the loop. */
  method ParseProcessesLoop(content: string) returns (processes: Dict)
    ensures processes == ParseProcesses(content)
  {
    var blocks := ProcessBlocks(content);
    processes := CollectLoop(blocks);
  }
}

=== FILE: orderedmap.dfy ===
/** The insertion-ordered dictionary of Python (lib/parse_launch_toml.py:30,
    59, 61, 84): a sequence of key/value pairs with distinct keys. Assigning to
    a key that is present replaces its value where it stands; assigning to a
    new key appends it, so iteration follows first insertion. */
module OrderedMap {
  import opened Wrappers

  /** A dictionary from process type to command line. */
  type Dict = seq<(string, string)>

  function Keys(m: Dict): (ks: seq<string>)
    ensures |ks| == |m|
    ensures forall i :: 0 <= i < |m| ==> ks[i] == m[i].0
  {
    if m == [] then [] else [m[0].0] + Keys(m[1..])
  }

  predicate Distinct(ks: seq<string>) {
    forall i, j :: 0 <= i < j < |ks| ==> ks[i] != ks[j]
  }

  /** `d.get(k)`: the value stored under `k`, if any. */
  function Get(m: Dict, k: string): (r: Option<string>)
    ensures r.None? <==> k !in Keys(m)
  {
    if m == [] then None
    else if m[0].0 == k then Some(m[0].1)
    else Get(m[1..], k)
  }

  /** `d[k] = v`: replace the value of `k` where it stands, or append `k`. */
  function Put(m: Dict, k: string, v: string): Dict
  {
    if m == [] then [(k, v)]
    else if m[0].0 == k then [(k, v)] + m[1..]
    else [m[0]] + Put(m[1..], k, v)
  }

  /** After `d[k] = v`, `k` maps to `v` and every other key keeps its value. */
  lemma {:induction false} PutGet(m: Dict, k: string, v: string, k': string)
    ensures Get(Put(m, k, v), k') == if k' == k then Some(v) else Get(m, k')
    decreases |m|
  {
    if m != [] && m[0].0 != k {
      var r := Put(m, k, v);
      assert r[0] == m[0] && r[1..] == Put(m[1..], k, v);
      PutGet(m[1..], k, v, k');
    }
  }

  /** `d[k] = v` keeps the key order when `k` is present and appends `k`
      otherwise. */
  lemma {:induction false} PutKeys(m: Dict, k: string, v: string)
    ensures Keys(Put(m, k, v)) == if k in Keys(m) then Keys(m) else Keys(m) + [k]
    decreases |m|
  {
    if m != [] {
      assert Keys(m) == [m[0].0] + Keys(m[1..]);
      if m[0].0 != k {
        var r := Put(m, k, v);
        assert r[0] == m[0] && r[1..] == Put(m[1..], k, v);
        assert Keys(r) == [m[0].0] + Keys(r[1..]);
        PutKeys(m[1..], k, v);
      }
    }
  }

  /** The optional assignment `u` assigns to key `k`. */
  predicate Writes(u: Option<(string, string)>, k: string) {
    u.Some? && u.value.0 == k
  }

  /** The dictionary after performing, in order, the assignments in `us`
      (a `None` stands for a skipped assignment), starting from `{}`. */
  function Apply(us: seq<Option<(string, string)>>): Dict
  {
    if us == [] then [] else Step(Apply(us[..|us| - 1]), us[|us| - 1])
  }

  /** One optional assignment. */
  function Step(m: Dict, u: Option<(string, string)>): Dict
  {
    match u
    case None => m
    case Some((k, v)) => Put(m, k, v)
  }

  /** The index of the first assignment to `k`, or `|us|` when there is none. */
  function FirstWrite(us: seq<Option<(string, string)>>, k: string): nat
  {
    if us == [] then 0
    else if Writes(us[0], k) then 0
    else 1 + FirstWrite(us[1..], k)
  }

  /** `FirstWrite` is the first assignment: none before it assigns `k`, and it
      does, unless it is `|us|`. */
  lemma {:induction false} FirstWriteSpec(us: seq<Option<(string, string)>>, k: string)
    ensures FirstWrite(us, k) <= |us|
    ensures forall j :: 0 <= j < FirstWrite(us, k) ==> !Writes(us[j], k)
    ensures FirstWrite(us, k) < |us| ==> Writes(us[FirstWrite(us, k)], k)
    decreases |us|
  {
    if us != [] && !Writes(us[0], k) {
      FirstWriteSpec(us[1..], k);
      forall j | 0 <= j < FirstWrite(us, k)
        ensures !Writes(us[j], k)
      {
        if j > 0 {
          assert us[j] == us[1..][j - 1];
        }
      }
    }
  }

  /** The first assignment to `k` is pinned down by its defining property. */
  lemma FirstWriteUnique(us: seq<Option<(string, string)>>, k: string, i: nat)
    requires i <= |us|
    requires forall j :: 0 <= j < i ==> !Writes(us[j], k)
    requires i < |us| ==> Writes(us[i], k)
    ensures FirstWrite(us, k) == i
  {
    FirstWriteSpec(us, k);
  }

  /** Performing one more assignment is one more step. */
  lemma ApplySnoc(us: seq<Option<(string, string)>>, u: Option<(string, string)>)
    ensures Apply(us + [u]) == Step(Apply(us), u)
  {
    assert (us + [u])[..|us|] == us;
  }

  /** Performing the assignments up to and including `us[i]`. */
  lemma ApplyPrefixStep(us: seq<Option<(string, string)>>, i: nat)
    requires i < |us|
    ensures Apply(us[..i + 1]) == Step(Apply(us[..i]), us[i])
  {
    assert us[..i + 1] == us[..i] + [us[i]];
    ApplySnoc(us[..i], us[i]);
  }

  /** The value of the last assignment to `k`, independently of any
      dictionary. */
  function LastWrite(us: seq<Option<(string, string)>>, k: string): (r: Option<string>)
    ensures r.None? <==> forall i :: 0 <= i < |us| ==> !Writes(us[i], k)
    decreases |us|
  {
    if us == [] then None
    else if Writes(us[|us| - 1], k) then Some(us[|us| - 1].value.1)
    else
      var r := LastWrite(us[..|us| - 1], k);
      assert forall i :: 0 <= i < |us| - 1 ==> us[..|us| - 1][i] == us[i];
      r
  }

  /** `LastWrite` is `v` exactly when some assignment writes `v` to `k` and
      no later one writes to `k`. */
  lemma {:induction false} LastWriteSome(us: seq<Option<(string, string)>>, k: string, v: string)
    ensures LastWrite(us, k) == Some(v) <==>
            exists i :: && 0 <= i < |us| && us[i] == Some((k, v))
                        && forall j :: i < j < |us| ==> !Writes(us[j], k)
    decreases |us|
  {
    if us != [] {
      var n := |us|;
      var prefix := us[..n - 1];
      assert forall i :: 0 <= i < n - 1 ==> prefix[i] == us[i];
      LastWriteSome(prefix, k, v);
      if Writes(us[n - 1], k) {
        if exists i :: && 0 <= i < n && us[i] == Some((k, v))
                       && forall j :: i < j < n ==> !Writes(us[j], k) {
          var i :| && 0 <= i < n && us[i] == Some((k, v))
                   && forall j :: i < j < n ==> !Writes(us[j], k);
          assert i == n - 1;
        }
        if LastWrite(us, k) == Some(v) {
          assert us[n - 1] == Some((k, v));
        }
      }
    }
  }

  /** The dictionary holds, for every key, the value of its last assignment. */
  lemma {:induction false} ApplyLastWrite(us: seq<Option<(string, string)>>, k: string)
    ensures Get(Apply(us), k) == LastWrite(us, k)
    decreases |us|
  {
    if us != [] {
      var n := |us|;
      var prefix := us[..n - 1];
      assert us == prefix + [us[n - 1]];
      ApplySnoc(prefix, us[n - 1]);
      ApplyLastWrite(prefix, k);
      if us[n - 1].Some? {
        PutGet(Apply(prefix), us[n - 1].value.0, us[n - 1].value.1, k);
      }
    }
  }

  /** Last write wins: a key is absent exactly when nothing assigned to it, and
      it maps to `v` exactly when the last assignment to it assigned `v`. */
  lemma ApplyGet(us: seq<Option<(string, string)>>, k: string, v: string)
    ensures Get(Apply(us), k).None? <==> forall i :: 0 <= i < |us| ==> !Writes(us[i], k)
    ensures Get(Apply(us), k) == Some(v) <==>
            exists i :: && 0 <= i < |us| && us[i] == Some((k, v))
                        && forall j :: i < j < |us| ==> !Writes(us[j], k)
  {
    ApplyLastWrite(us, k);
    LastWriteSome(us, k, v);
  }

  /** Appending one assignment leaves every earlier first assignment where
      it was. */
  lemma FirstWriteSnoc(prefix: seq<Option<(string, string)>>, u: Option<(string, string)>, k: string)
    ensures FirstWrite(prefix + [u], k)
         == if FirstWrite(prefix, k) < |prefix| then FirstWrite(prefix, k)
            else if Writes(u, k) then |prefix| else |prefix| + 1
  {
    var us := prefix + [u];
    var i := FirstWrite(prefix, k);
    assert forall j :: 0 <= j < |prefix| ==> us[j] == prefix[j];
    FirstWriteSpec(prefix, k);
    FirstWriteUnique(us, k, if i < |prefix| then i else if Writes(u, k) then |prefix| else |prefix| + 1);
  }

  /** The keys are exactly the keys ever assigned. */
  lemma ApplyKeysAssigned(us: seq<Option<(string, string)>>, k: string)
    ensures k in Keys(Apply(us)) <==> FirstWrite(us, k) < |us|
  {
    ApplyGet(us, k, "");
    FirstWriteSpec(us, k);
  }

  /** The dictionary stays empty exactly when every assignment is skipped. */
  lemma ApplyEmpty(us: seq<Option<(string, string)>>)
    ensures Apply(us) == [] <==> forall i :: 0 <= i < |us| ==> us[i].None?
  {
    if Apply(us) != [] {
      var k := Apply(us)[0].0;
      assert k in Keys(Apply(us));
      ApplyGet(us, k, "");
    } else {
      forall i | 0 <= i < |us|
        ensures us[i].None?
      {
        if us[i].Some? {
          ApplyGet(us, us[i].value.0, "");
          assert Writes(us[i], us[i].value.0);
        }
      }
    }
  }

  /** The keys come out distinct. */
  lemma {:induction false} ApplyKeysDistinct(us: seq<Option<(string, string)>>)
    ensures Distinct(Keys(Apply(us)))
    decreases |us|
  {
    if us != [] {
      var prefix := us[..|us| - 1];
      assert us == prefix + [us[|us| - 1]];
      ApplySnoc(prefix, us[|us| - 1]);
      if us[|us| - 1].Some? {
        PutKeys(Apply(prefix), us[|us| - 1].value.0, us[|us| - 1].value.1);
      }
      ApplyKeysDistinct(prefix);
    }
  }

  /** The keys `ks` are listed in the order of their first assignment in `us`. */
  predicate InFirstWriteOrder(us: seq<Option<(string, string)>>, ks: seq<string>) {
    forall p, q :: 0 <= p < q < |ks| ==> FirstWrite(us, ks[p]) < FirstWrite(us, ks[q])
  }

  /** One more assignment does not move the first assignment of a key that
      is already present. */
  lemma PresentKeysKeepFirstWrite(prefix: seq<Option<(string, string)>>, u: Option<(string, string)>)
    ensures var ks := Keys(Apply(prefix));
            forall p :: 0 <= p < |ks| ==>
              FirstWrite(prefix + [u], ks[p]) == FirstWrite(prefix, ks[p]) < |prefix|
  {
    var ks := Keys(Apply(prefix));
    forall p | 0 <= p < |ks|
      ensures FirstWrite(prefix + [u], ks[p]) == FirstWrite(prefix, ks[p]) < |prefix|
    {
      ApplyKeysAssigned(prefix, ks[p]);
      FirstWriteSnoc(prefix, u, ks[p]);
    }
  }

  /** One more assignment keeps the keys in first-assignment order. */
  lemma ApplySnocOrdered(prefix: seq<Option<(string, string)>>, u: Option<(string, string)>)
    requires InFirstWriteOrder(prefix, Keys(Apply(prefix)))
    ensures InFirstWriteOrder(prefix + [u], Keys(Apply(prefix + [u])))
  {
    var us := prefix + [u];
    var ks := Keys(Apply(prefix));
    var ks2 := Keys(Apply(us));
    ApplySnoc(prefix, u);
    if u.Some? {
      PutKeys(Apply(prefix), u.value.0, u.value.1);
    }
    PresentKeysKeepFirstWrite(prefix, u);
    if u.Some? && u.value.0 !in ks {
      var k := u.value.0;
      ApplyKeysAssigned(prefix, k);
      FirstWriteSnoc(prefix, u, k);
      assert ks2 == ks + [k];
      forall p, q | 0 <= p < q < |ks2|
        ensures FirstWrite(us, ks2[p]) < FirstWrite(us, ks2[q])
      {
        assert ks2[p] == ks[p];
        if q < |ks| {
          assert ks2[q] == ks[q];
        } else {
          assert ks2[q] == k;
        }
      }
    } else {
      assert ks2 == ks;
    }
  }

  /** The keys come out in the order of their first assignment. */
  lemma {:induction false} ApplyKeysOrdered(us: seq<Option<(string, string)>>)
    ensures forall p, q :: 0 <= p < q < |Apply(us)| ==>
              FirstWrite(us, Keys(Apply(us))[p]) < FirstWrite(us, Keys(Apply(us))[q])
    decreases |us|
  {
    if us != [] {
      var prefix := us[..|us| - 1];
      assert us == prefix + [us[|us| - 1]];
      ApplyKeysOrdered(prefix);
      ApplySnocOrdered(prefix, us[|us| - 1]);
    }
  }

  /** A skipped assignment anywhere in the run changes nothing. */
  lemma {:induction false} ApplySkipAt(a: seq<Option<(string, string)>>, b: seq<Option<(string, string)>>)
    ensures Apply(a + [None] + b) == Apply(a + b)
    decreases |b|
  {
    if b == [] {
      assert a + [None] + b == a + [None];
      assert a + b == a;
      ApplySnoc(a, None);
    } else {
      var b' := b[..|b| - 1];
      var x := b[|b| - 1];
      assert a + [None] + b == (a + [None] + b') + [x];
      assert a + b == (a + b') + [x];
      ApplySnoc(a + [None] + b', x);
      ApplySnoc(a + b', x);
      ApplySkipAt(a, b');
    }
  }
}

=== FILE: shellquote.dfy ===
/** `shlex.join` and `shlex.quote` as the standard library of Python defines
    them, and a POSIX word splitter to read their output back. The splitter
    follows section 2.2 ("Quoting"), section 2.3 ("Token Recognition") and
    section 2.6.7 ("Quote Removal") of the Shell Command Language in
    POSIX.1-2017 for the characters `shlex.quote` can produce: unquoted blanks
    (space and tab) delimit words, single quotes preserve everything up to the
    next single quote (section 2.2.2), double quotes preserve their contents
    when those hold no `\`, `$` or backquote (section 2.2.3), quote removal
    leaves the contents, and an unquoted character stands for itself unless
    section 2.2 names it as special. A special character outside quotes, the
    backslash and the newline (which ends the command) among them, is outside
    this model and makes the splitter give up. So does the NUL character,
    quoted or not: the shell reads its commands from a text file, which holds
    no NUL (section 3.403 of the Base Definitions volume of POSIX.1-2017), or
    from a command string or argument, which ends at the first NUL. */
module ShellQuote {
  import opened Wrappers
  import opened Text

  /** `shlex.quote` leaves a word bare when every character is in
      `[\w@%+=:,./-]` with ASCII `\w`. */
  predicate IsSafeChar(c: char) {
    || ('a' <= c <= 'z')
    || ('A' <= c <= 'Z')
    || ('0' <= c <= '9')
    || c == '_' || c == '@' || c == '%' || c == '+' || c == '='
    || c == ':' || c == ',' || c == '.' || c == '/' || c == '-'
  }

  /** The blanks of the POSIX locale, which delimit words: space and tab. */
  predicate IsBlank(c: char) {
    c == ' ' || c == '\t'
  }

  /** The characters section 2.2 of the Shell Command Language requires to be
      quoted to stand for themselves (`|&;<>()$`, the backquote, `\`, both
      quotes and the newline; the blanks are `IsBlank`), and those it names as
      special in some
      positions: `*?[` for pathname expansion, `#` for comments and `~` for
      tilde expansion. */
  const ShellSpecial: string := "|&;<>()$`\\\"'\n*?[#~"

  /** Any character but NUL, which no shell input can carry. */
  predicate NotNul(c: char) {
    c != '\0'
  }

  /** Words none of which holds NUL, so that a shell can be handed them. */
  predicate NulFree(words: seq<string>) {
    forall i :: 0 <= i < |words| ==> All(words[i], NotNul)
  }

  /** An unquoted character that stands for itself in a word. */
  predicate IsOrdinary(c: char) {
    NotNul(c) && !IsBlank(c) && c !in ShellSpecial
  }

  /** Every character `shlex.quote` leaves bare stands for itself in the shell. */
  lemma SafeIsOrdinary(c: char)
    requires IsSafeChar(c)
    ensures IsOrdinary(c)
  {
  }

  predicate NotSingleQuote(c: char) {
    c != '\''
  }

  predicate NotDoubleQuote(c: char) {
    c != '"'
  }

  /** Characters that stand for themselves inside double quotes. */
  predicate PlainInDouble(c: char) {
    NotNul(c) && c != '"' && c != '\\' && c != '$' && c != '`'
  }

  /** `s.replace("'", "'\"'\"'")`: every single quote becomes a closing single
      quote, a double-quoted single quote and a reopening single quote. */
  function Escape(s: string): string
    decreases |s|
  {
    var (run, rest) := Span(s, NotSingleQuote);
    if rest == [] then run
    else run + ("'\"'\"'" + Escape(rest[1..]))
  }

  /** `shlex.quote(s)`: `''` for the empty word, the word itself when it is
      made of safe characters only, and otherwise the word between single
      quotes with its own single quotes escaped. */
  function Quote(s: string): (r: string)
    ensures r != []
    ensures s == [] ==> r == "''"
    ensures r == s <==> s != [] && All(s, IsSafeChar)
    ensures r[0] != '\'' ==> r == s && All(s, IsSafeChar)
  {
    if s == [] then "''"
    else if All(s, IsSafeChar) then s
    else
      EscapeLonger(s);
      "'" + (Escape(s) + "'")
  }

  /** Escaping never shortens a word. */
  lemma {:induction false} EscapeLonger(s: string)
    ensures |Escape(s)| >= |s|
    decreases |s|
  {
    var (run, rest) := Span(s, NotSingleQuote);
    if rest != [] {
      EscapeLonger(rest[1..]);
    }
  }

  /** `shlex.join(words)`: the quoted words separated by single spaces. */
  function Join(words: seq<string>): (r: string)
    ensures r == [] <==> words == []
  {
    if |words| == 0 then ""
    else if |words| == 1 then Quote(words[0])
    else Quote(words[0]) + (" " + Join(words[1..]))
  }

  /** The word being assembled so far, empty when none has started. */
  function Pending(cur: Option<string>): string {
    cur.GetOr("")
  }

  /** The finished words, with the word under way appended if one started.
      A started word counts even when it is empty, as `''` makes one. */
  function Flush(cur: Option<string>, acc: seq<string>): seq<string> {
    if cur.Some? then acc + [cur.value] else acc
  }

  /** Word splitting of the rest of a command line `s`, given the word under
      way `cur` and the words `acc` finished before it; `None` for an
      unterminated quote, a NUL, or a character outside the modelled
      subset. */
  function SplitFrom(s: string, cur: Option<string>, acc: seq<string>): Option<seq<string>>
    decreases |s|
  {
    if s == [] then Some(Flush(cur, acc))
    else if IsBlank(s[0]) then SplitFrom(s[1..], None, Flush(cur, acc))
    else if s[0] == '\'' then
      var (body, y) := Span(s[1..], NotSingleQuote);
      if y == [] || !All(body, NotNul) then None
      else SplitFrom(y[1..], Some(Pending(cur) + body), acc)
    else if s[0] == '"' then
      var (body, y) := Span(s[1..], NotDoubleQuote);
      if y == [] || !All(body, PlainInDouble) then None
      else SplitFrom(y[1..], Some(Pending(cur) + body), acc)
    else if IsOrdinary(s[0]) then SplitFrom(s[1..], Some(Pending(cur) + [s[0]]), acc)
    else None
  }

  /** The words of a command line, as a POSIX shell splits it. */
  function Split(s: string): Option<seq<string>>
  {
    SplitFrom(s, None, [])
  }

  /** An unquoted newline ends the command rather than separating two
      words of it, so the splitter refuses it: `a` and `b` on two lines are
      two commands, not one command with two words. */
  lemma NewlineEndsCommand()
    ensures Split("a\nb") == None
  {
    assert ShellSpecial[12] == '\n';
    assert !IsOrdinary('\n');
    assert IsOrdinary('a');
    assert "a\nb"[1..] == "\nb";
    assert SplitFrom("\nb", Some("a"), []) == None;
  }

  /** A NUL anywhere in the rest of a command line, quoted or not, makes the
      splitter refuse the line. */
  lemma {:induction false} NulRefused(s: string, cur: Option<string>, acc: seq<string>)
    requires !All(s, NotNul)
    ensures SplitFrom(s, cur, acc) == None
    decreases |s|
  {
    var t := s[1..];
    assert s == [s[0]] + t;
    AllAppend([s[0]], t, NotNul);
    if IsBlank(s[0]) {
      NulRefused(t, None, Flush(cur, acc));
    } else if s[0] == '\'' || s[0] == '"' {
      var p := if s[0] == '\'' then NotSingleQuote else NotDoubleQuote;
      var (body, y) := Span(t, p);
      if y != [] && All(body, NotNul) {
        AllAppend(body, y, NotNul);
        assert y == [y[0]] + y[1..];
        AllAppend([y[0]], y[1..], NotNul);
        NulRefused(y[1..], Some(Pending(cur) + body), acc);
      }
    } else if IsOrdinary(s[0]) {
      NulRefused(t, Some(Pending(cur) + [s[0]]), acc);
    }
  }

  /** A run of safe characters extends the word under way. */
  lemma {:induction false} SafeRunSplits(w: string, rest: string, cur: string, acc: seq<string>)
    requires All(w, IsSafeChar)
    ensures SplitFrom(w + rest, Some(cur), acc) == SplitFrom(rest, Some(cur + w), acc)
    decreases |w|
  {
    if w == [] {
      assert w + rest == rest;
      assert cur + w == cur;
    } else {
      var s := w + rest;
      assert s[0] == w[0] && s[1..] == w[1..] + rest;
      SafeIsOrdinary(w[0]);
      SafeRunSplits(w[1..], rest, cur + [w[0]], acc);
      assert cur + [w[0]] + w[1..] == cur + w;
    }
  }

  /** A single-quoted span extends the word under way by its contents. */
  lemma SingleQuotedSplits(body: string, rest: string, cur: Option<string>, acc: seq<string>)
    requires All(body, NotSingleQuote) && All(body, NotNul)
    ensures SplitFrom("'" + (body + ("'" + rest)), cur, acc)
         == SplitFrom(rest, Some(Pending(cur) + body), acc)
  {
    var s := "'" + (body + ("'" + rest));
    assert s[1..] == body + ("'" + rest);
    SpanExact(body, "'" + rest, NotSingleQuote);
    assert ("'" + rest)[1..] == rest;
  }

  /** A double-quoted span of plain characters extends the word under way by
      its contents. */
  lemma DoubleQuotedSplits(body: string, rest: string, cur: Option<string>, acc: seq<string>)
    requires All(body, PlainInDouble)
    ensures SplitFrom("\"" + (body + ("\"" + rest)), cur, acc)
         == SplitFrom(rest, Some(Pending(cur) + body), acc)
  {
    var s := "\"" + (body + ("\"" + rest));
    assert s[1..] == body + ("\"" + rest);
    SpanExact(body, "\"" + rest, NotDoubleQuote);
    assert ("\"" + rest)[1..] == rest;
  }

  /** One escaped single quote: the quoted run before it ends, the quote
      itself is read from double quotes, and single quoting resumes, all
      inside the same word. */
  lemma EscapedQuoteSplits(run: string, e: string, rest: string, cur: Option<string>, acc: seq<string>)
    requires All(run, NotSingleQuote) && All(run, NotNul)
    ensures SplitFrom("'" + (run + ("'\"'\"'" + (e + ("'" + rest)))), cur, acc)
         == SplitFrom("'" + (e + ("'" + rest)), Some(Pending(cur) + run + "'"), acc)
  {
    var tail := "'" + (e + ("'" + rest));
    var dq := "\"" + ("'" + ("\"" + tail));
    assert "'\"'\"'" + (e + ("'" + rest)) == "'" + dq;
    var cur1 := Some(Pending(cur) + run);
    calc {
      SplitFrom("'" + (run + ("'\"'\"'" + (e + ("'" + rest)))), cur, acc);
      SplitFrom("'" + (run + ("'" + dq)), cur, acc);
      { SingleQuotedSplits(run, dq, cur, acc); }
      SplitFrom(dq, cur1, acc);
      { DoubleQuotedSplits("'", tail, cur1, acc); }
      SplitFrom(tail, Some(Pending(cur) + run + "'"), acc);
    }
  }

  /** A word without single quotes needs no escaping. */
  lemma EscapeNoQuote(w: string)
    requires All(w, NotSingleQuote)
    ensures Escape(w) == w
  {
    SpanExact(w, [], NotSingleQuote);
    assert w + [] == w;
  }

  /** `Escape` at the first single quote: the quote-free text before it is
      kept, the quote becomes `'"'"'`, and the rest is escaped in turn. */
  lemma EscapeFirstQuote(run: string, b: string)
    requires All(run, NotSingleQuote)
    ensures Escape(run + ("'" + b)) == run + ("'\"'\"'" + Escape(b))
  {
    SpanExact(run, "'" + b, NotSingleQuote);
    assert ("'" + b)[1..] == b;
  }

  /** Escaping keeps every NUL of the word. */
  lemma {:induction false} EscapeKeepsNul(s: string)
    requires !All(s, NotNul)
    ensures !All(Escape(s), NotNul)
    decreases |s|
  {
    var (run, rest) := Span(s, NotSingleQuote);
    AllAppend(run, rest, NotNul);
    if rest != [] {
      assert rest == [rest[0]] + rest[1..];
      AllAppend([rest[0]], rest[1..], NotNul);
      var q, e := "'\"'\"'", Escape(rest[1..]);
      AllAppend(run, q + e, NotNul);
      AllAppend(q, e, NotNul);
      if All(run, NotNul) {
        EscapeKeepsNul(rest[1..]);
      }
    }
  }

  /** A single-quoted word with its single quotes escaped extends the word
      under way by exactly the original text. */
  lemma {:induction false} EscapedSplits(w: string, rest: string, cur: Option<string>, acc: seq<string>)
    requires All(w, NotNul)
    ensures SplitFrom("'" + (Escape(w) + ("'" + rest)), cur, acc)
         == SplitFrom(rest, Some(Pending(cur) + w), acc)
    decreases |w|
  {
    var (run, y) := Span(w, NotSingleQuote);
    AllAppend(run, y, NotNul);
    if y == [] {
      assert w == run + [];
      EscapeNoQuote(w);
      SingleQuotedSplits(w, rest, cur, acc);
    } else {
      var b := y[1..];
      assert y == "'" + b;
      AllAppend("'", b, NotNul);
      EscapeFirstQuote(run, b);
      var e := Escape(b);
      var cur2 := Some(Pending(cur) + run + "'");
      var q, c := "'\"'\"'", "'" + rest;
      assert Escape(w) + c == run + (q + (e + c)) by {
        Regroup(run, q, e, c);
        assert Escape(w) == run + q + e;
      }
      EscapedQuoteSplits(run, e, rest, cur, acc);
      EscapedSplits(b, rest, cur2, acc);
      assert Pending(cur2) == Pending(cur) + run + "'";
      Regroup(Pending(cur), run, "'", b);
    }
  }

  /** A quoted word, whatever it holds, extends the word under way by exactly
      that word. */
  lemma QuoteSplits(w: string, rest: string, cur: Option<string>, acc: seq<string>)
    requires All(w, NotNul)
    ensures SplitFrom(Quote(w) + rest, cur, acc) == SplitFrom(rest, Some(Pending(cur) + w), acc)
  {
    if w == [] {
      var s := "''" + rest;
      assert s[1..] == "'" + rest;
      SpanExact("", "'" + rest, NotSingleQuote);
      assert ("'" + rest)[1..] == rest;
      assert Pending(cur) + w == Pending(cur) + "";
    } else if All(w, IsSafeChar) {
      var s := w + rest;
      assert s[0] == w[0] && s[1..] == w[1..] + rest;
      SafeIsOrdinary(w[0]);
      SafeRunSplits(w[1..], rest, Pending(cur) + [w[0]], acc);
      assert Pending(cur) + [w[0]] + w[1..] == Pending(cur) + w;
    } else {
      EscapedSplits(w, rest, cur, acc);
      assert Quote(w) + rest == "'" + (Escape(w) + ("'" + rest));
    }
  }

  /** Splitting a joined command line of NUL-free words appends exactly
      those words, empty ones included. */
  lemma {:induction false} JoinSplitsFrom(words: seq<string>, acc: seq<string>)
    requires NulFree(words)
    ensures SplitFrom(Join(words), None, acc) == Some(acc + words)
    decreases |words|
  {
    if |words| == 0 {
      assert acc + words == acc;
    } else if |words| == 1 {
      QuoteSplits(words[0], "", None, acc);
      assert Quote(words[0]) + "" == Quote(words[0]);
      assert Pending(None) + words[0] == words[0];
      AppendHead(acc, words);
      assert words[1..] == [] && acc + [words[0]] + [] == acc + [words[0]];
    } else {
      var tail := Join(words[1..]);
      QuoteSplits(words[0], " " + tail, None, acc);
      assert Pending(None) + words[0] == words[0];
      assert (" " + tail)[1..] == tail;
      JoinSplitsFrom(words[1..], acc + [words[0]]);
      AppendHead(acc, words);
    }
  }

  /** Quoting keeps every NUL of the word. */
  lemma QuoteKeepsNul(w: string)
    requires !All(w, NotNul)
    ensures !All(Quote(w), NotNul)
  {
    var k :| 0 <= k < |w| && !NotNul(w[k]);
    assert !IsSafeChar(w[k]);
    EscapeKeepsNul(w);
    AllAppend("'", Escape(w) + "'", NotNul);
    AllAppend(Escape(w), "'", NotNul);
  }

  /** Joining keeps every NUL of the words. */
  lemma {:induction false} JoinKeepsNul(words: seq<string>)
    requires !NulFree(words)
    ensures !All(Join(words), NotNul)
    decreases |words|
  {
    var i :| 0 <= i < |words| && !All(words[i], NotNul);
    if i == 0 {
      QuoteKeepsNul(words[0]);
    } else {
      assert words[1..][i - 1] == words[i];
      JoinKeepsNul(words[1..]);
    }
    if |words| > 1 {
      AllAppend(Quote(words[0]), " " + Join(words[1..]), NotNul);
      AllAppend(" ", Join(words[1..]), NotNul);
    }
  }

  /** Round trip: a POSIX shell splits the joined command line back into
      exactly the words that were joined, empty words included, whenever the
      words can be handed to a shell at all; a word holding NUL makes the
      line unreadable. */
  lemma JoinSplits(words: seq<string>)
    ensures NulFree(words) ==> Split(Join(words)) == Some(words)
    ensures !NulFree(words) ==> Split(Join(words)) == None
  {
    if NulFree(words) {
      JoinSplitsFrom(words, []);
      assert [] + words == words;
    } else {
      JoinKeepsNul(words);
      NulRefused(Join(words), None, []);
    }
  }
}

=== FILE: text.dfy ===
/** Character classes and small scanners shared by the launch-descriptor parser.
    Each scanner stands for one fragment of the regular expressions in
    lib/parse_launch_toml.py, written out for the fixed pattern it serves. */
module Text {
  import opened Wrappers

  /** Python's `\s` in a `str` pattern: exactly the characters for which
      `str.isspace()` holds (the ASCII controls 9-13 and 28-31, the space,
      and the Unicode separators Python counts as white space). */
  predicate IsSpace(c: char) {
    || ('\t' <= c <= '\r')
    || ('\U{1C}' <= c <= '\U{1F}')
    || c == ' '
    || c == '\U{85}'
    || c == '\U{A0}'
    || c == '\U{1680}'
    || ('\U{2000}' <= c <= '\U{200A}')
    || c == '\U{2028}'
    || c == '\U{2029}'
    || c == '\U{202F}'
    || c == '\U{205F}'
    || c == '\U{3000}'
  }

  /** The two delimiters of the character class `["\']`. */
  predicate IsQuote(c: char) {
    c == '"' || c == '\''
  }

  /** The class `[^"\']`. */
  predicate NotQuote(c: char) {
    !IsQuote(c)
  }

  /** A string no quote character of either kind occurs in. */
  predicate QuoteFree(s: string) {
    forall k :: 0 <= k < |s| ==> NotQuote(s[k])
  }

  /** Every character of `s` satisfies `p`. */
  predicate All(s: string, p: char -> bool) {
    forall k :: 0 <= k < |s| ==> p(s[k])
  }

  /** The literal `w` occurs in `s` starting at position `i`. */
  predicate HasAt(s: string, i: nat, w: string) {
    i + |w| <= |s| && s[i..i + |w|] == w
  }

  /** `w` occurs somewhere in `s`. */
  predicate Occurs(s: string, w: string) {
    exists i: nat :: i <= |s| && HasAt(s, i, w)
  }

  /** A greedy run `p*` at the front of `u`: the longest prefix whose
      characters all satisfy `p`, and what follows it. */
  function Span(u: string, p: char -> bool): (r: (string, string))
    ensures u == r.0 + r.1
    ensures All(r.0, p)
    ensures r.1 == [] || !p(r.1[0])
  {
    if u != [] && p(u[0]) then
      var (run, rest) := Span(u[1..], p);
      assert u == [u[0]] + u[1..];
      ([u[0]] + run, rest)
    else ([], u)
  }

  /** On a text laid out as `run + stop`, where `run` satisfies `p` throughout
      and `stop` does not begin with a `p` character, the greedy run is
      exactly `run`. */
  lemma {:induction false} SpanExact(run: string, stop: string, p: char -> bool)
    requires All(run, p)
    requires stop == [] || !p(stop[0])
    ensures Span(run + stop, p) == (run, stop)
    decreases |run|
  {
    if run != [] {
      var u := run + stop;
      assert u[0] == run[0] && p(u[0]);
      assert u[1..] == run[1..] + stop;
      SpanExact(run[1..], stop, p);
      assert [u[0]] + run[1..] == run;
    } else {
      assert run + stop == stop;
    }
  }

  /** Leftmost search, the way `re.search` scans: the first position in
      `from..limit` at which the matcher `m` succeeds, with what it matched. */
  function FirstMatch<T>(limit: nat, from: nat, m: nat -> Option<T>): Option<(nat, T)>
    decreases limit + 1 - from
  {
    if from > limit then None
    else if m(from).Some? then Some((from, m(from).value))
    else FirstMatch(limit, from + 1, m)
  }

  /** `FirstMatch` finds the leftmost success, and fails only when `m` fails
      at every position it scans. */
  lemma {:induction false} FirstMatchSpec<T>(limit: nat, from: nat, m: nat -> Option<T>)
    ensures var r := FirstMatch(limit, from, m);
            && (r.Some? ==> from <= r.value.0 <= limit && m(r.value.0) == Some(r.value.1))
            && (r.Some? ==> forall j :: from <= j < r.value.0 ==> m(j).None?)
            && (r.None? <==> forall j :: from <= j <= limit ==> m(j).None?)
    decreases limit + 1 - from
  {
    if from <= limit && m(from).None? {
      FirstMatchSpec(limit, from + 1, m);
    }
  }

  /** The position of the first occurrence of `w` in `s` at or after `from`. */
  function Find(s: string, w: string, from: nat): (r: Option<nat>)
    ensures r.Some? ==> from <= r.value && HasAt(s, r.value, w)
    ensures r.Some? ==> forall j :: from <= j < r.value ==> !HasAt(s, j, w)
    ensures r.None? <==> forall j :: from <= j ==> !HasAt(s, j, w)
  {
    var m := (i: nat) => if HasAt(s, i, w) then Some(i) else None;
    assert forall j :: m(j).None? <==> !HasAt(s, j, w);
    FirstMatchSpec(|s|, from, m);
    match FirstMatch(|s|, from, m)
    case None => None
    case Some((i, _)) => Some(i)
  }

  /** An occurrence in a prefix is an occurrence in the whole text. */
  lemma HasAtPrefix(s: string, n: nat, j: nat, w: string)
    requires n <= |s| && HasAt(s[..n], j, w)
    ensures HasAt(s, j, w)
  {
    assert s[..n][j..j + |w|] == s[j..j + |w|];
  }

  /** A text is its three consecutive slices put back together. */
  lemma Slices3(s: string, i: nat, j: nat)
    requires i <= j <= |s|
    ensures s[..i] + s[i..j] + s[j..] == s
  {
  }

  /** Four pieces nested to the right are the same four pieces in a row. */
  lemma Regroup(a: string, b: string, c: string, d: string)
    ensures a + (b + (c + d)) == a + b + c + d
  {
  }

  /** A property holds throughout a concatenation exactly when it holds
      throughout both parts. */
  lemma AllAppend(a: string, b: string, p: char -> bool)
    ensures All(a + b, p) <==> All(a, p) && All(b, p)
  {
    if All(a + b, p) {
      forall k | 0 <= k < |a|
        ensures p(a[k])
      {
        assert (a + b)[k] == a[k];
      }
      forall k | 0 <= k < |b|
        ensures p(b[k])
      {
        assert (a + b)[|a| + k] == b[k];
      }
    }
  }

  /** Appending a list is appending its head, then its tail. */
  lemma AppendHead<T>(acc: seq<T>, xs: seq<T>)
    requires |xs| > 0
    ensures acc + [xs[0]] + xs[1..] == acc + xs
  {
    assert xs == [xs[0]] + xs[1..];
  }
}

=== FILE: wrappers.dfy ===
/** The optional value used wherever the modelled program may come back empty-handed:
    a regular-expression search with no match, a dictionary lookup of a missing key. */
module Wrappers {

  datatype Option<+T> = None | Some(value: T) {

    /** The carried value, or `default` when there is none. */
    function GetOr(default: T): T {
      match this
      case Some(v) => v
      case None => default
    }
  }
}
